=== FILE: README.md ===
# Media feed screen — Dafny model

A model of the logic under a full-screen, swipeable media feed (a React
Native screen in `app/index.tsx`). The screen loads a catalog of video and
audio items, filters it by category from a slide-in side menu, steps
through the filtered view with vertical swipes (wrapping at both ends),
keeps at most one sound open, and shows `m:ss` timestamps. Rendering,
animation curves and the platform's media APIs are not modelled; their
outcomes enter as parameters.

Modules, one per concern of the screen:

- `Optional`, `Media` (`media.dfy`): the `Option` type, `MediaItem`,
  `MediaType` (`Video | Audio`) and `MediaFilter` (`ShowAll | ShowVideo | ShowAudio`).
- `FilterEngine` (`filter.dfy`): `filterMedia` as `Filter`, characterised
  against an independent list of kept positions.
- `Catalog` (`catalog.dfy`): `loadMedia` as a function of the permission
  and query outcome, and the five-item sample list.
- `Navigation` (`navigation.dfy`): `goToNext` / `goToPrevious` as pure
  `(index, len) -> index` functions.
- `TimeLabel`, `TimeFormat` (`timefmt.dfy`): the `m:ss` label of a clock
  reading with a parser as its inverse, and `formatTime` on natural
  milliseconds.
- `Gesture` (`gesture.dfy`): the pan responder's claim, move and release
  callbacks as functions of `(dx, dy, vx, vy)`.
- `Session` (`session.dfy`): the screen state record and its transitions
  (tap, mute, play/pause, filter change, swipe, the auto-hide timer,
  catalog load, and the playback effect with its single-sound discipline),
  plus an event-driven `Run` whose reachable states keep an invariant.

Some behaviours of the code are easy to miss, and the model keeps them:

- On release, a drag with `|dx| == |dy|` takes the vertical branch; only
  `|dx| > |dy|` is horizontal.
- The progress bar divides position by duration with no zero guard (left
  out, see below).
- Play/pause on an audio item with no open sound does nothing; it never
  opens one.
- A new sound is opened at full volume even when the screen is muted
  (`Session.NewSoundIgnoresMute`).

Two effects of React's state handling are modelled. First, setting a
state to the value it already has does not re-render. So choosing the
active category again keeps the index, and a swipe in a one-item view does
not reload the item. Second, a category with no items never reaches the
playback effect, so the transitions leave an open sound open behind the
empty-state message (`Session.EmptyCategoryKeepsSound`). The mounted
screen never reaches that state: a category is only empty before the
first load, when no sound is open, and every loaded catalog holds the
samples' videos and audio items (`Session.NoSoundBehindEmptyView`).

## Model

| member | source | states |
|---|---|---|
| FilterEngine.Positions | app/index.tsx:252-254 | the reference for filtering: strictly increasing in-range indices, containing index j exactly when item j has the chosen kind |
| FilterEngine.Select | app/index.tsx:252-254 | filtering by kind never lengthens the list and keeps only items of that kind drawn from the catalog |
| FilterEngine.SelectAtPositions | app/index.tsx:252-254 | the k-th kept item is the catalog item at the k-th matching position, so the order is the catalog's |
| FilterEngine.SelectAdmits | app/index.tsx:252-254 | an item is in the filtered list if and only if it is in the catalog and has the chosen kind |
| FilterEngine.Filter | app/index.tsx:248-257 | every item of the view passes the filter, every catalog item that passes is in it, and `all` returns the catalog unchanged |
| FilterEngine.SelectEmbeds | app/index.tsx:252-254 | the kept items embed in the catalog in order at the matching positions, and no matching item is skipped |
| FilterEngine.FilterIsOrderedSubsequence | app/index.tsx:248-257 | each category view is an order-preserving subsequence of the catalog that leaves out no admitted item |
| FilterEngine.VideoAudioPartition | app/index.tsx:586-609 | the video count and audio count shown in the menu add up to the catalog size |
| FilterEngine.SelectConcat | app/index.tsx:252-254 | filtering a concatenation filters each part and concatenates |
| FilterEngine.FilterConcat | app/index.tsx:248-257 | every category view of a concatenated catalog is the two parts' views, in order |
| FilterEngine.FilterIdempotent | app/index.tsx:248-257 | filtering an already filtered view by the same category changes nothing |
| Catalog.SampleMedia | app/index.tsx:59-95 | the sample list has exactly five items |
| Catalog.ToItem | app/index.tsx:216-222 | id, uri, filename and duration pass through, and the item is a video exactly when the asset is a video |
| Catalog.ToItems | app/index.tsx:216-222 | the device list maps one item per asset, position by position |
| Catalog.LoadMedia | app/index.tsx:205-246 | denial or any failure yields exactly the sample list; a grant yields the mapped assets, then the five samples, length `|assets| + 5` |
| Catalog.SampleIds | app/index.tsx:59-95 | the sample ids are "1" to "5" in list order |
| Catalog.AlternatingFive | app/index.tsx:252-254 | a five-item list alternating video and audio, starting with a video, filters to three videos and two audio items |
| Catalog.SampleComposition | app/index.tsx:59-95 | the samples are three videos and two audio items |
| Catalog.GrantedViewsSplit | app/index.tsx:224-226 | after a grant each category view lists the matching device items, then the matching samples, never interleaved |
| Navigation.Next | app/index.tsx:316-322 | a valid index stays in `[0, len)` and moves one step forward modulo the length |
| Navigation.Previous | app/index.tsx:324-330 | a valid index stays in `[0, len)` and moves one step back modulo the length, so 0 goes to `len - 1` |
| Navigation.SingleItemIsFixed | app/index.tsx:316-330 | in a one-item view both directions stay at 0 |
| Navigation.NextPreviousInverse | app/index.tsx:316-330 | going back undoes going forward and going forward undoes going back |
| Navigation.Advance | app/index.tsx:316-322 | any number of forward swipes stays in range |
| Navigation.AdvanceIsModular | app/index.tsx:316-322 | k forward swipes from i land on `(i + k) % len` |
| Navigation.FullCycleReturns | app/index.tsx:316-322 | `len` forward swipes return to the starting item |
| TimeLabel.NatToString | app/index.tsx:414 | the decimal rendering is non-empty, all digits, has no leading zero, and is one character long exactly for values below 10 |
| TimeLabel.NatToStringValue | app/index.tsx:414 | reading the rendered digits back gives the number |
| TimeLabel.PadStart2 | app/index.tsx:414 | the padded text ends with the input and is at least two characters long, with only zeros added in front |
| TimeLabel.TwoDigits | app/index.tsx:413-414 | the seconds field is exactly two digits and denotes the seconds |
| TimeLabel.Render | app/index.tsx:414 | the label is digits, a colon and two digits, with no leading zero on minutes of two or more digits, and reading it back gives the same minutes and seconds |
| TimeLabel.ParseClock | app/index.tsx:414 | only text of the shape `digits:dd` with a seconds field below 60 is read as a clock |
| TimeLabel.ParseLabel | app/index.tsx:414 | minutes digits, a colon and two seconds digits below 60 read back as the numbers the digits denote |
| TimeLabel.RenderInjective | app/index.tsx:414 | two clock readings share a label if and only if they are equal |
| TimeLabel.RenderZero | app/index.tsx:414 | zero minutes and seconds render as "0:00" |
| TimeLabel.RenderPadsSeconds | app/index.tsx:414 | one minute five renders as "1:05" |
| TimeLabel.RenderTenMinutes | app/index.tsx:414 | ten minutes render as "10:00" |
| TimeFormat.TimeParts | app/index.tsx:411-413 | the seconds part is below 60, and minutes times 60 plus seconds is the floored number of whole seconds |
| TimeFormat.FormatTime | app/index.tsx:410-415 | the label reads back as the millisecond count's minutes and seconds, so as `ms / 1000` whole seconds, and its minutes carry no leading zero |
| TimeFormat.FormatTimeSameSecond | app/index.tsx:410-415 | two times share a label if and only if they fall in the same second |
| TimeFormat.FormatTimeZero | app/index.tsx:410-415 | 0 ms reads "0:00" |
| TimeFormat.FormatTimePadsSeconds | app/index.tsx:410-415 | 65 000 ms reads "1:05" |
| TimeFormat.FormatTimeDropsMilliseconds | app/index.tsx:410-415 | 600 999 ms reads "10:00" |
| Gesture.ShouldClaim | app/index.tsx:100-111 | a drag is claimed if and only if neither axis ties and the longer one has moved more than 10 points |
| Gesture.OnMove | app/index.tsx:112-124 | a horizontal-dominant drag moves the menu only for `0 < dx < 200`; any other drag moves the feed by `dy` |
| Gesture.Classify | app/index.tsx:125-148 | exactly one outcome per release: menu open or close if and only if horizontal-dominant, with open if and only if `dx > 50` or `vx > 0.5`; otherwise next for an upward, previous for a downward drag when `|dy| > 50` or `|vy| > 0.5`, else nothing |
| Gesture.MoveAndReleaseAgreeOnAxis | app/index.tsx:112-148 | for the same travel, the feed follows the finger exactly when the release is read as vertical |
| Gesture.ClaimedGesturesHaveAnAxis | app/index.tsx:100-111 | at the move that claims it a drag has no tie between the axes; the release may still see a tie, since it reads the later total travel |
| Gesture.VerticalMirror | app/index.tsx:137-148 | mirroring a vertical swipe swaps next and previous and keeps "nothing" |
| Gesture.LeftwardDragCloses | app/index.tsx:128-136 | a leftward horizontal drag that is not a fast rightward flick closes the menu |
| Gesture.ClassifyExamples | app/index.tsx:125-148 | `dx = 80, vx = 0.2` opens the menu; `dy = -60` is next; a downward flick at `vy = 0.9` is previous; no travel does nothing |
| Session.Initial | app/index.tsx:34-45 | the mounted screen has the controls shown, nothing playing, not muted, and satisfies the invariant |
| Session.Activate | app/index.tsx:261-296 | an empty view is left alone; otherwise the old sound is always released; a video plays with no sound open; an audio item has a sound open if and only if opening succeeded, and that sound is the current item's at full volume |
| Session.NewSoundIgnoresMute | app/index.tsx:277-283 | while muted, a newly opened sound is at full volume and the mute flag stays set |
| Session.Navigate | app/index.tsx:174-178 | moving to the index already shown changes nothing; moving to a new index in the view plays the item there (a video plays with no sound open, an audio item has its own sound open exactly when opening succeeded) and keeps the invariant |
| Session.Refilter | app/index.tsx:170-178 | recomputing the view puts the index at 0 and keeps the invariant; a non-empty view plays its first item as `Navigate` does; an empty view keeps whatever sound was open |
| Session.SelectFilter | app/index.tsx:170-172 | re-choosing the active category changes nothing; a new category refilters, so the index is 0 and the first item of the new view is played as `Session.Refilter` does; the controls and mute flag are untouched |
| Session.ChangeFilter | app/index.tsx:395-398 | the menu closes and the view becomes the catalog under the new category; a new category then behaves as `Session.SelectFilter` (index 0, first item played); the controls and mute flag are untouched |
| Session.EmptyCategoryKeepsSound | app/index.tsx:174-178 | the transitions leave an open sound open when the new category is empty (a state the mounted screen never reaches, see `Session.NoSoundBehindEmptyView`) |
| Session.LoadCatalog | app/index.tsx:165-178 | a load installs the assembled catalog, keeps the category, the menu, the controls and the mute flag, resets the index to 0, and plays the first item of the view, which always exists: a video plays with no sound open, an audio item has its own sound open exactly when opening succeeded |
| Session.TogglePlayPause | app/index.tsx:298-314 | only the playing flag can change, and it flips if and only if the item is a video or its sound is open |
| Session.TogglePlayPauseTwice | app/index.tsx:298-314 | pressing play/pause twice restores the state |
| Session.ToggleMute | app/index.tsx:332-341 | the mute flag always flips; with an open sound the volume is silent exactly when muted; otherwise the volume is untouched |
| Session.MuteUnmuteRestoresFullVolume | app/index.tsx:332-341 | mute then unmute on a sound ends at full volume, whatever the volume was |
| Session.ScreenTap | app/index.tsx:400-408 | a tap with the menu open closes only the menu; with it closed it flips only the controls; the menu is closed afterwards |
| Session.TapTwice | app/index.tsx:400-408 | two taps with the menu closed cancel out |
| Session.AutoHide | app/index.tsx:181-189 | the timer hides the controls exactly when they are shown, media plays and the menu is closed, and touches nothing else |
| Session.AutoHideSettles | app/index.tsx:181-189 | a second expiry does nothing, and an open menu keeps the controls |
| Session.SwipeTarget | app/index.tsx:139-146 | a vertical swipe targets an in-range index whose opposite step leads back |
| Session.Release | app/index.tsx:125-148 | a release on the live state opens or closes only the menu, or moves one step forward or back from the live index with wrap-around and then plays the new item exactly as `Session.Navigate` does, or does nothing, and keeps the invariant |
| Session.StaleRelease | app/index.tsx:98-163 | with the first-render closures, a swipe up always goes to index 0 and a swipe down to -1 |
| Session.StaleSwipeLeavesView | app/index.tsx:324-330 | as wired, a downward swipe leaves the screen without a current item |
| Session.LiveAndStaleSwipesDiffer | app/index.tsx:98-163 | from the first of three items, a downward swipe reaches index 2 on the live state but -1 as wired |
| Session.Step | app/index.tsx:434-723 | every event keeps the invariant; each is taken only while its control is on screen: "show all" on the empty-state screen, the side menu's buttons while it is open, play/pause and mute while the controls are shown |
| Session.RunKeepsInv | app/index.tsx:165-189 | every sequence of events keeps the invariant, so a non-empty view always has a current item |
| Session.ReachableStatesAreSound | app/index.tsx:34-45 | every state reachable from the mounted screen satisfies the invariant |
| Session.LoadedCatalogCoversEveryFilter | app/index.tsx:205-258 | every loaded catalog, granted or not, has items under each of the three categories |
| Session.StepKeepsSettled | app/index.tsx:165-178 | every event keeps "no catalog and no sound, or every category non-empty" |
| Session.RunKeepsSettled | app/index.tsx:165-178 | every sequence of events keeps the same property |
| Session.NoSoundBehindEmptyView | app/index.tsx:174-178 | from the mounted screen, an empty view never has a sound open behind it |

## Findings

| source | as written | input that shows it | evidently intended | confidence | as-written member | corrected member |
|---|---|---|---|---|---|---|
| app/index.tsx:98-163 | the pan responder is built once, so its release callback calls the first render's `goToPrevious`, which reads index 0 and an empty list and sets the index to `0 - 1` | any loaded feed, then a release with `dx = 0, dy = 80` | step back from the live index, wrapping to the last item | not executed; high | Session.StaleSwipeLeavesView | Session.Release |

As written, the same first-render `goToNext` sends every upward swipe to
index 0 (`Session.StaleRelease`). Index -1 then makes the render read a
missing item (app/index.tsx:454-469). The rest of the model navigates from
the live index and length (`Session.SwipeTarget`).

## Left out

- Rendering and styling (the JSX and the style sheet): presentation only.
- Animations: easing, durations and the spring back of the drag offsets after a release are visual. Only their final flag effects are modelled, applied at once.
- Platform calls: the permission request, the asset query (its 100-item page size is applied by the platform), audio mode setup, opening, unloading, playing and pausing sounds, and the video surface's calls. The permission and query results are the `LoadOutcome` parameter and the sound-opening result is `opens`; unloading is taken to succeed (see `Session.Activate` below), and playing and pausing to take effect.
- The permission alert and its settings button: a dialog whose second permission request result is ignored.
- Status callbacks: position and duration are copied verbatim from the player. The playing flag they report after a play or pause is taken to arrive at once in `Session.TogglePlayPause`.
- Asynchronous interleaving: two overlapping playback effects could each open a sound before the other unloads. The model runs each effect to completion.
- The 3-second delay of the auto-hide timer: only its guard and its expiry are modelled.
- The progress bar width: a floating-point percentage with no zero-duration guard, so `0/0` gives NaN.
- The like button, the loading flag and the localized titles (`getFilterTitle`): display state with no effect on the rest.
- Session.Activate: assumes unloading the previous sound always succeeds. In the code a rejected `unloadAsync` skips clearing the handle and the error is swallowed (app/index.tsx:268-271, 293), so the old sound would stay open under the new item; the invariant `HandleOwned` holds only under that assumption.
- Session.TogglePlayPause: assumes the video surface is mounted whenever the current item is a video, as the render guarantees.
- Touch routing between overlays: the controls overlay covers the whole feed and takes touches while shown (app/index.tsx:622-631, 946-954), and it is drawn above the tap overlay (app/index.tsx:512-517). A tap on the screen while the controls are shown may therefore never reach `handleScreenTap`. The model lets `Tapped` happen whenever the feed is shown, because which view receives a touch depends on the platform's hit testing.
- Session.ToggleMute: makes the same assumption about the video surface, and takes the surface's mute call and the sound's volume call to succeed. In the code either call can reject with no handler, which skips flipping the flag (app/index.tsx:335-340).
- TimeFormat.FormatTime: natural milliseconds only; a negative or fractional value would take `Math.floor` below zero or through fractions.
- Gesture.Classify: displacements are whole points; velocities are exact reals, since only comparisons are made.

=== FILE: catalog.dfy ===
/** Catalog assembly: the device's assets, when the media-library permission
    is granted, followed by the fixed sample list; the sample list alone
    otherwise. The permission request and the asset query are foreign
    calls, so their result arrives here as a `LoadOutcome`. */
module Catalog {
  import opened Media
  import FilterEngine

  /** The media kinds the device library reports. */
  datatype AssetKind = PhotoAsset | VideoAsset | AudioAsset | UnknownAsset

  /** One entry of the device library's answer. */
  datatype Asset = Asset(id: string, uri: string, filename: string, kind: AssetKind, duration: real)

  /** How the permission request and the asset query ended. `Failed` stands
      for any exception thrown on the way. */
  datatype LoadOutcome = Granted(assets: seq<Asset>) | Denied | Failed

  /** Where the sample videos are hosted, and the one sound both sample
      audio items play. */
  const SampleBucket: string := "https://commondatastorage.googleapis.com/gtv-videos-bucket/sample/"
  const BellSound: string := "https://www.soundjay.com/misc/sounds/bell-ringing-05.wav"

  /** The five built-in demonstration items, in their fixed order. */
  function SampleMedia(): (r: seq<MediaItem>)
    ensures |r| == 5
  {
    [ MediaItem("1", SampleBucket + "BigBuckBunny.mp4",
                "Big Buck Bunny", Video, 596.0),
      MediaItem("2", BellSound,
                "Beautiful Music", Audio, 180.0),
      MediaItem("3", SampleBucket + "ElephantsDream.mp4",
                "Elephants Dream", Video, 653.0),
      MediaItem("4", BellSound,
                "Relaxing Sounds", Audio, 240.0),
      MediaItem("5", SampleBucket + "ForBiggerBlazes.mp4",
                "For Bigger Blazes", Video, 15.0) ]
  }

  /** Normalise one device asset: identity, locator, name and duration pass
      through; anything that is not a video is treated as audio. */
  function ToItem(a: Asset): (m: MediaItem)
    ensures m.id == a.id && m.uri == a.uri && m.filename == a.filename && m.duration == a.duration
    ensures m.mediaType == Video <==> a.kind == VideoAsset
  {
    MediaItem(a.id, a.uri, a.filename, if a.kind == VideoAsset then Video else Audio, a.duration)
  }

  function ToItems(assets: seq<Asset>): (r: seq<MediaItem>)
    ensures |r| == |assets|
    ensures forall i :: 0 <= i < |assets| ==> r[i] == ToItem(assets[i])
  {
    seq(|assets|, i requires 0 <= i < |assets| => ToItem(assets[i]))
  }

  /** `loadMedia`: never fails, always yields a catalog. */
  function LoadMedia(outcome: LoadOutcome): (c: seq<MediaItem>)
    ensures !outcome.Granted? ==> c == SampleMedia()
    ensures outcome.Granted? ==> |c| == |outcome.assets| + 5
    ensures outcome.Granted? ==> c[|outcome.assets|..] == SampleMedia()
    ensures outcome.Granted? ==> forall i :: 0 <= i < |outcome.assets| ==>
      && c[i].id == outcome.assets[i].id
      && c[i].uri == outcome.assets[i].uri
      && c[i].filename == outcome.assets[i].filename
      && c[i].duration == outcome.assets[i].duration
      && (c[i].mediaType == Video <==> outcome.assets[i].kind == VideoAsset)
  {
    match outcome
    case Granted(assets) => ToItems(assets) + SampleMedia()
    case Denied => SampleMedia()
    case Failed => SampleMedia()
  }

  /** The sample ids run from "1" to "5" in list order. */
  lemma SampleIds()
    ensures forall i :: 0 <= i < 5 ==> SampleMedia()[i].id == [('1' as int + i) as char]
  {
  }

  /** The sample list holds three videos and two audio items. */
  lemma SampleComposition()
    ensures |FilterEngine.Filter(SampleMedia(), ShowVideo)| == 3
    ensures |FilterEngine.Filter(SampleMedia(), ShowAudio)| == 2
  {
    var s := SampleMedia();
    assert s[0].mediaType == Video && s[1].mediaType == Audio && s[2].mediaType == Video;
    assert s[3].mediaType == Audio && s[4].mediaType == Video;
    AlternatingFive(s);
  }

  /** Five items alternating video, audio, video, audio, video split into
      three videos and two audio items. */
  lemma AlternatingFive(s: seq<MediaItem>)
    requires |s| == 5
    requires s[0].mediaType == Video && s[1].mediaType == Audio && s[2].mediaType == Video
    requires s[3].mediaType == Audio && s[4].mediaType == Video
    ensures |FilterEngine.Filter(s, ShowVideo)| == 3
    ensures |FilterEngine.Filter(s, ShowAudio)| == 2
  {
    assert FilterEngine.Select(s[..1], Video) == [s[0]] by {
      assert s[..1][..0] == [];
    }
    assert FilterEngine.Select(s[..2], Video) == [s[0]] by {
      assert s[..2][..1] == s[..1];
    }
    assert FilterEngine.Select(s[..3], Video) == [s[0], s[2]] by {
      assert s[..3][..2] == s[..2];
    }
    assert FilterEngine.Select(s[..4], Video) == [s[0], s[2]] by {
      assert s[..4][..3] == s[..3];
    }
    assert FilterEngine.Filter(s, ShowVideo) == [s[0], s[2], s[4]];
    FilterEngine.VideoAudioPartition(s);
  }

  /** With permission, each category view lists the device's matching items
      first and the matching samples after them, never interleaved. */
  lemma GrantedViewsSplit(assets: seq<Asset>, f: MediaFilter)
    ensures FilterEngine.Filter(LoadMedia(Granted(assets)), f)
         == FilterEngine.Filter(ToItems(assets), f) + FilterEngine.Filter(SampleMedia(), f)
  {
    FilterEngine.FilterConcat(ToItems(assets), SampleMedia(), f);
  }
}

=== FILE: filter.dfy ===
/** The filter engine: the order-preserving view of the catalog that the
    current category selects. */
module FilterEngine {
  import opened Media

  /** Indices of the items of kind `t`, in increasing order. This is the
      reference against which `Select` is characterised. */
  function Positions(items: seq<MediaItem>, t: MediaType): (p: seq<nat>)
    ensures forall k :: 0 <= k < |p| ==> p[k] < |items|
    ensures forall k, l :: 0 <= k < l < |p| ==> p[k] < p[l]
    ensures forall j :: 0 <= j < |items| ==> (j in p <==> items[j].mediaType == t)
    decreases |items|
  {
    if |items| == 0 then []
    else
      var init := items[..|items| - 1];
      var p0 := Positions(init, t);
      assert forall j :: 0 <= j < |init| ==> items[j] == init[j];
      p0 + (if items[|items| - 1].mediaType == t then [|items| - 1] else [])
  }

  /** `Array.prototype.filter` by media kind: keeps exactly the items of
      kind `t`, in catalog order. */
  function Select(items: seq<MediaItem>, t: MediaType): (r: seq<MediaItem>)
    ensures |r| <= |items|
    ensures forall k :: 0 <= k < |r| ==> r[k] in items && r[k].mediaType == t
    decreases |items|
  {
    if |items| == 0 then []
    else
      var init := items[..|items| - 1];
      var last := items[|items| - 1];
      Select(init, t) + (if last.mediaType == t then [last] else [])
  }

  /** The filtered view: the catalog itself for `ShowAll`, otherwise the
      items of the chosen kind. */
  function Filter(catalog: seq<MediaItem>, f: MediaFilter): (r: seq<MediaItem>)
    ensures |r| <= |catalog|
    ensures forall k :: 0 <= k < |r| ==> Admits(f, r[k])
    ensures forall x :: x in r <==> x in catalog && Admits(f, x)
    ensures f == ShowAll ==> r == catalog
  {
    match f
    case ShowAll => catalog
    case ShowVideo => SelectAdmits(catalog, Video); Select(catalog, Video)
    case ShowAudio => SelectAdmits(catalog, Audio); Select(catalog, Audio)
  }

  /** `Select` keeps, in order, exactly the items at `Positions`. */
  lemma {:induction false} SelectAtPositions(items: seq<MediaItem>, t: MediaType)
    ensures |Select(items, t)| == |Positions(items, t)|
    ensures forall k :: 0 <= k < |Select(items, t)| ==>
      Select(items, t)[k] == items[Positions(items, t)[k]]
    decreases |items|
  {
    if |items| > 0 {
      var init := items[..|items| - 1];
      SelectAtPositions(init, t);
      var r0, p0 := Select(init, t), Positions(init, t);
      var last := items[|items| - 1];
      var r, p := Select(items, t), Positions(items, t);
      assert r == r0 + (if last.mediaType == t then [last] else []);
      assert p == p0 + (if last.mediaType == t then [|items| - 1] else []);
      forall k | 0 <= k < |r|
        ensures r[k] == items[p[k]]
      {
        if k < |r0| {
          assert r[k] == r0[k] == init[p0[k]];
          assert p[k] == p0[k];
        }
      }
    }
  }

  /** Membership in `Select` is exactly "in the catalog and of kind t". */
  lemma SelectAdmits(items: seq<MediaItem>, t: MediaType)
    ensures forall x :: x in Select(items, t) <==> x in items && x.mediaType == t
  {
    SelectAtPositions(items, t);
    var r, p := Select(items, t), Positions(items, t);
    forall x | x in items && x.mediaType == t
      ensures x in r
    {
      var j :| 0 <= j < |items| && items[j] == x;
      var k :| 0 <= k < |p| && p[k] == j;
      assert r[k] == x;
    }
  }

  /** An order-preserving embedding of `a` into `b`: strictly increasing
      indices `idx` with `b[idx[k]] == a[k]`. */
  ghost predicate EmbedsAt<T>(a: seq<T>, b: seq<T>, idx: seq<nat>)
  {
    && |idx| == |a|
    && (forall k :: 0 <= k < |idx| ==> idx[k] < |b| && b[idx[k]] == a[k])
    && (forall k, l :: 0 <= k < l < |idx| ==> idx[k] < idx[l])
  }

  /** Every filtered view is an order-preserving subsequence of the catalog,
      witnessed by the positions of the kept items; and no item of the
      chosen category is skipped. */
  lemma FilterIsOrderedSubsequence(catalog: seq<MediaItem>, f: MediaFilter)
    ensures f == ShowAll ==> EmbedsAt(Filter(catalog, f), catalog, seq(|catalog|, i => i))
    ensures f == ShowVideo ==> EmbedsAt(Filter(catalog, f), catalog, Positions(catalog, Video))
    ensures f == ShowAudio ==> EmbedsAt(Filter(catalog, f), catalog, Positions(catalog, Audio))
    ensures forall j :: 0 <= j < |catalog| && Admits(f, catalog[j]) ==> catalog[j] in Filter(catalog, f)
  {
    match f
    case ShowAll =>
    case ShowVideo => SelectEmbeds(catalog, Video);
    case ShowAudio => SelectEmbeds(catalog, Audio);
  }

  lemma SelectEmbeds(items: seq<MediaItem>, t: MediaType)
    ensures EmbedsAt(Select(items, t), items, Positions(items, t))
    ensures forall j :: 0 <= j < |items| && items[j].mediaType == t ==> items[j] in Select(items, t)
  {
    SelectAtPositions(items, t);
    SelectAdmits(items, t);
  }

  /** Every item is a video or an audio item, so the two category views
      split the catalog: their lengths add up to the catalog's. */
  lemma {:induction false} VideoAudioPartition(catalog: seq<MediaItem>)
    ensures |Filter(catalog, ShowVideo)| + |Filter(catalog, ShowAudio)| == |catalog|
    decreases |catalog|
  {
    if |catalog| > 0 {
      VideoAudioPartition(catalog[..|catalog| - 1]);
    }
  }

  /** Filtering a concatenation filters each part. */
  lemma {:induction false} SelectConcat(a: seq<MediaItem>, b: seq<MediaItem>, t: MediaType)
    ensures Select(a + b, t) == Select(a, t) + Select(b, t)
    decreases |b|
  {
    if |b| == 0 {
      assert a + b == a;
    } else {
      var b0, last := b[..|b| - 1], b[|b| - 1];
      var tail := if last.mediaType == t then [last] else [];
      assert (a + b)[..|a + b| - 1] == a + b0;
      assert (a + b)[|a + b| - 1] == last;
      assert Select(a + b, t) == Select(a + b0, t) + tail;
      assert Select(b, t) == Select(b0, t) + tail;
      SelectConcat(a, b0, t);
    }
  }

  lemma FilterConcat(a: seq<MediaItem>, b: seq<MediaItem>, f: MediaFilter)
    ensures Filter(a + b, f) == Filter(a, f) + Filter(b, f)
  {
    match f
    case ShowAll =>
    case ShowVideo => SelectConcat(a, b, Video);
    case ShowAudio => SelectConcat(a, b, Audio);
  }

  /** Selecting a kind twice selects it once. */
  lemma {:induction false} SelectIdempotent(items: seq<MediaItem>, t: MediaType)
    ensures Select(Select(items, t), t) == Select(items, t)
    decreases |items|
  {
    if |items| > 0 {
      var init := items[..|items| - 1];
      var last := items[|items| - 1];
      SelectIdempotent(init, t);
      SelectConcat(Select(init, t), if last.mediaType == t then [last] else [], t);
      if last.mediaType == t {
        assert Select([last], t) == Select([], t) + [last] by {
          assert [last][..0] == [];
        }
      } else {
        assert Select([], t) == [];
      }
    }
  }

  /** Re-applying the same filter to a filtered view changes nothing. */
  lemma FilterIdempotent(catalog: seq<MediaItem>, f: MediaFilter)
    ensures Filter(Filter(catalog, f), f) == Filter(catalog, f)
  {
    match f
    case ShowAll =>
    case ShowVideo => SelectIdempotent(catalog, Video);
    case ShowAudio => SelectIdempotent(catalog, Audio);
  }
}

=== FILE: gesture.dfy ===
/** The pan responder's three callbacks as pure functions of the drag's
    displacement (`dx`, `dy`, in points) and release velocity (`vx`, `vy`).
    Only comparisons are involved, so velocities are exact reals. */
module Gesture {

  /** A drag must travel this far along its dominant axis to be claimed. */
  const ClaimDistance: int := 10
  /** Release thresholds: travel or speed beyond these commits the swipe. */
  const SwipeDistance: int := 50
  const SwipeVelocity: real := 0.5
  /** The menu follows the finger only while the drag is inside its width. */
  const MenuWidth: int := 200

  function Abs(x: int): nat
  {
    if x < 0 then -x else x
  }

  function AbsReal(x: real): real
  {
    if x < 0.0 then -x else x
  }

  /** `onMoveShouldSetPanResponder`: claim the gesture once one axis
      strictly dominates and has moved more than `ClaimDistance`. */
  predicate ShouldClaim(dx: int, dy: int): (b: bool)
    ensures b <==> Abs(dx) != Abs(dy) && (Abs(dx) > ClaimDistance || Abs(dy) > ClaimDistance)
  {
    (Abs(dx) > Abs(dy) && Abs(dx) > ClaimDistance)
    || (Abs(dy) > Abs(dx) && Abs(dy) > ClaimDistance)
  }

  /** What a move event does to the on-screen offsets. */
  datatype DragUpdate =
    | SlideMenu(offset: int)   // the horizontal offset follows the finger
    | SlideFeed(offset: int)   // the vertical offset follows the finger
    | Hold                     // nothing moves

  /** `onPanResponderMove`. */
  function OnMove(dx: int, dy: int): (u: DragUpdate)
    ensures u.SlideMenu? ==> u.offset == dx && 0 < dx < MenuWidth && Abs(dx) > Abs(dy)
    ensures u.SlideFeed? <==> Abs(dx) <= Abs(dy)
    ensures u.SlideFeed? ==> u.offset == dy
    ensures u.Hold? <==> Abs(dx) > Abs(dy) && (dx <= 0 || dx >= MenuWidth)
  {
    if Abs(dx) > Abs(dy) then
      if 0 < dx < MenuWidth then SlideMenu(dx) else Hold
    else
      SlideFeed(dy)
  }

  /** The one action a release dispatches, if any. */
  datatype SwipeAction = OpenMenu | CloseMenu | Next | Previous | NoAction
  {
    predicate IsHorizontal() { this == OpenMenu || this == CloseMenu }
  }

  /** `onPanResponderRelease`: a horizontal-dominant drag opens or closes the
      menu; any other drag, ties included, navigates when it travelled or
      moved fast enough, up for the next item and down for the previous. */
  function Classify(dx: int, dy: int, vx: real, vy: real): (a: SwipeAction)
    ensures a.IsHorizontal() <==> Abs(dx) > Abs(dy)
    ensures a == OpenMenu <==> Abs(dx) > Abs(dy) && (dx > SwipeDistance || vx > SwipeVelocity)
    ensures a == Next <==> Abs(dx) <= Abs(dy) && dy < 0
                           && (Abs(dy) > SwipeDistance || AbsReal(vy) > SwipeVelocity)
    ensures a == Previous <==> Abs(dx) <= Abs(dy) && dy >= 0
                               && (Abs(dy) > SwipeDistance || AbsReal(vy) > SwipeVelocity)
    ensures a == NoAction <==> Abs(dx) <= Abs(dy)
                               && Abs(dy) <= SwipeDistance && AbsReal(vy) <= SwipeVelocity
  {
    if Abs(dx) > Abs(dy) then
      if dx > SwipeDistance || vx > SwipeVelocity then OpenMenu else CloseMenu
    else if Abs(dy) > SwipeDistance || AbsReal(vy) > SwipeVelocity then
      if dy < 0 then Next else Previous
    else
      NoAction
  }

  /** Move and release agree on the axis: for the same travel, the feed
      follows the finger exactly when the release is read as vertical. */
  lemma MoveAndReleaseAgreeOnAxis(dx: int, dy: int, vx: real, vy: real)
    ensures OnMove(dx, dy).SlideFeed? <==> !Classify(dx, dy, vx, vy).IsHorizontal()
  {
  }

  /** At the move that claims it, a drag has a strictly dominant axis. The
      claim is decided once, on an early move; the release reads the total
      travel when the finger lifts, which can still be a tie (claimed at
      (0, 20), released at (20, 20)). */
  lemma ClaimedGesturesHaveAnAxis(dx: int, dy: int)
    requires ShouldClaim(dx, dy)
    ensures Abs(dx) > Abs(dy) || Abs(dy) > Abs(dx)
  {
  }

  /** Mirroring a committed vertical swipe swaps next and previous. */
  lemma VerticalMirror(dx: int, dy: int, vx: real, vy: real)
    requires dy != 0
    ensures Classify(dx, dy, vx, vy) == Next <==> Classify(dx, -dy, vx, -vy) == Previous
    ensures Classify(dx, dy, vx, vy) == NoAction <==> Classify(dx, -dy, vx, -vy) == NoAction
  {
  }

  /** The horizontal axis opens in one direction only: a leftward drag,
      however long, closes the menu unless the rightward velocity exceeds
      the threshold. */
  lemma LeftwardDragCloses(dx: int, dy: int, vx: real, vy: real)
    requires dx < 0 && Abs(dx) > Abs(dy) && vx <= SwipeVelocity
    ensures Classify(dx, dy, vx, vy) == CloseMenu
  {
  }

  /** Worked releases: an 80-point slow horizontal drag opens the menu on
      distance alone; a 60-point upward drag moves to the next item; a
      20-point downward flick goes back on velocity alone; a tap-like
      release with no travel does nothing. */
  lemma ClassifyExamples()
    ensures Classify(80, 0, 0.2, 0.0) == OpenMenu
    ensures Classify(0, -60, 0.0, 0.0) == Next
    ensures Classify(3, 20, 0.0, 0.9) == Previous
    ensures Classify(0, 0, 0.0, 0.0) == NoAction
  {
  }
}

=== FILE: media.dfy ===
/** Shared vocabulary of the media screen: an optional value, the item
    record, the two media kinds and the three filter categories. */

module Optional {

  /** A value that may be absent (a null reference in the screen's code). */
  datatype Option<+T> = None | Some(value: T)
}

module Media {

  /** The two kinds a catalog item can have; fixed when the item is made. */
  datatype MediaType = Video | Audio

  /** One playable entry of the catalog. `duration` is carried through
      verbatim from wherever the item came from and is never computed. */
  datatype MediaItem = MediaItem(
    id: string,
    uri: string,
    filename: string,
    mediaType: MediaType,
    duration: real)

  /** The category chosen in the side menu: everything, videos or audio. */
  datatype MediaFilter = ShowAll | ShowVideo | ShowAudio

  /** Does the filter let this item through? */
  predicate Admits(f: MediaFilter, item: MediaItem)
  {
    match f
    case ShowAll => true
    case ShowVideo => item.mediaType == Video
    case ShowAudio => item.mediaType == Audio
  }
}

=== FILE: navigation.dfy ===
/** Wrap-around stepping through the filtered view, as plain index
    arithmetic over the view's length. */
module Navigation {

  /** Swipe up: one step forward, back to the first item after the last. */
  function Next(index: int, len: int): (r: int)
    ensures 0 <= index < len ==> 0 <= r < len
    ensures 0 <= index < len ==> r == (index + 1) % len
  {
    if index < len - 1 then index + 1 else 0
  }

  /** Swipe down: one step back, on to the last item before the first. */
  function Previous(index: int, len: int): (r: int)
    ensures 0 <= index < len ==> 0 <= r < len
    ensures 0 <= index < len ==> r == (index + len - 1) % len
  {
    if index > 0 then index - 1 else len - 1
  }

  /** A one-item view is a fixed point of both directions. */
  lemma SingleItemIsFixed()
    ensures Next(0, 1) == 0 && Previous(0, 1) == 0
  {
  }

  /** Going back undoes going forward, and going forward undoes going back. */
  lemma NextPreviousInverse(index: int, len: int)
    requires 0 <= index < len
    ensures Previous(Next(index, len), len) == index
    ensures Next(Previous(index, len), len) == index
  {
  }

  /** `k` consecutive forward swipes. */
  function Advance(index: int, len: int, k: nat): (r: int)
    requires 0 <= index < len
    ensures 0 <= r < len
    decreases k
  {
    if k == 0 then index else Next(Advance(index, len, k - 1), len)
  }

  /** `k` forward swipes land `k` places further on, modulo the length. */
  lemma {:induction false} AdvanceIsModular(index: int, len: int, k: nat)
    requires 0 <= index < len
    ensures Advance(index, len, k) == (index + k) % len
    decreases k
  {
    if k > 0 {
      AdvanceIsModular(index, len, k - 1);
      var a := (index + k - 1) % len;
      assert Next(a, len) == (a + 1) % len;
      ModAddOne(index + k - 1, len);
    }
  }

  lemma ModAddOne(x: int, len: int)
    requires 0 <= x && 0 < len
    ensures (x % len + 1) % len == (x + 1) % len
  {
    var q, m := x / len, x % len;
    assert x == q * len + m;
    if m + 1 == len {
      assert x + 1 == (q + 1) * len + 0;
      ModUnique(x + 1, len, q + 1, 0);
      ModUnique(m + 1, len, 1, 0);
    } else {
      assert x + 1 == q * len + (m + 1);
      ModUnique(x + 1, len, q, m + 1);
      ModUnique(m + 1, len, 0, m + 1);
    }
  }

  /** The remainder is the only value in range that completes a division. */
  lemma ModUnique(n: int, len: int, q: int, m: int)
    requires 0 < len && 0 <= m < len && n == q * len + m
    ensures n % len == m
  {
    var q2, m2 := n / len, n % len;
    assert (q - q2) * len == m2 - m;
    if q - q2 >= 1 {
      assert false;
    } else if q - q2 <= -1 {
      assert false;
    }
  }

  /** Swiping forward once per item returns to where one started. */
  lemma FullCycleReturns(index: int, len: int)
    requires 0 <= index < len
    ensures Advance(index, len, len) == index
  {
    AdvanceIsModular(index, len, len);
    ModUnique(index + len, len, 1, index);
  }
}

=== FILE: session.dfy ===
/** The screen's state and its transitions. Animation completion callbacks
    and the player's status callbacks are taken to apply at once; foreign
    calls that can fail (opening a sound) take their outcome as a
    parameter. */
module Session {
  import opened Optional
  import opened Media
  import FilterEngine
  import Navigation
  import Gesture
  import Catalog

  /** The open sound's volume: the screen only ever sets 1.0 or 0.0. */
  datatype Volume = Full | Silent

  /** Everything the screen's logic reads and writes. `audio` is the id of
      the item whose sound is open, if one is. */
  datatype UiState = UiState(
    catalog: seq<MediaItem>,
    filter: MediaFilter,
    index: int,
    showMenu: bool,
    showControls: bool,
    isPlaying: bool,
    isMuted: bool,
    volume: Volume,
    audio: Option<string>)

  /** The filtered view the feed shows. */
  function View(s: UiState): seq<MediaItem>
  {
    FilterEngine.Filter(s.catalog, s.filter)
  }

  predicate HasCurrent(s: UiState)
  {
    0 <= s.index < |View(s)|
  }

  function Current(s: UiState): MediaItem
    requires HasCurrent(s)
  {
    View(s)[s.index]
  }

  /** The open sound, if any, belongs to the item on screen, which is an
      audio item: there is never a second sound, nor one left over from an
      item already swiped away. */
  predicate HandleOwned(s: UiState)
  {
    s.audio.Some? ==> HasCurrent(s) && Current(s).mediaType == Audio && Current(s).id == s.audio.value
  }

  /** What every reachable state satisfies: the index points into the view
      (or is 0 for an empty view), and while the view is non-empty any open
      sound belongs to the current item. */
  predicate Inv(s: UiState)
  {
    && (s.index == 0 || HasCurrent(s))
    && (|View(s)| > 0 ==> HandleOwned(s))
  }

  /** The state of a freshly mounted screen. */
  function Initial(): (s: UiState)
    ensures Inv(s) && !s.showMenu && s.showControls && !s.isPlaying && !s.isMuted
  {
    UiState([], ShowAll, 0, false, true, false, false, Full, None)
  }

  /** `playCurrentMedia`: with an empty view nothing happens; otherwise any
      open sound is unloaded first, then a video is handed to the video
      surface, or a new sound is opened for an audio item (`opens` says
      whether that succeeded; a failure is swallowed). */
  function Activate(s: UiState, opens: bool): (r: UiState)
    ensures |View(s)| == 0 ==> r == s
    ensures r == s.(isPlaying := r.isPlaying, volume := r.volume, audio := r.audio)
    ensures |View(s)| > 0 ==> HandleOwned(r)
    ensures HasCurrent(s) && Current(s).mediaType == Video ==> r.audio == None && r.isPlaying
    ensures HasCurrent(s) && Current(s).mediaType == Audio ==>
      (r.audio.Some? <==> opens) && (opens ==> r.isPlaying && r.volume == Full)
    ensures r.audio.None? && !(HasCurrent(s) && Current(s).mediaType == Video) ==>
      r.isPlaying == s.isPlaying
  {
    if |View(s)| == 0 then s
    else
      var released := s.(audio := None);
      if !HasCurrent(s) then released
      else if Current(s).mediaType == Video then released.(isPlaying := true)
      else if opens then released.(audio := Some(Current(s).id), volume := Full, isPlaying := true)
      else released
  }

  /** A new sound starts at full volume even while the screen says muted:
      the mute flag is only pushed to the video surface. */
  lemma NewSoundIgnoresMute(s: UiState)
    requires HasCurrent(s) && Current(s).mediaType == Audio && s.isMuted
    ensures Activate(s, true).isMuted && Activate(s, true).volume == Full
  {
  }

  /** The index moved: play the item now under it. Setting the index to
      its current value does not re-render, so nothing is reloaded. */
  function Navigate(s: UiState, target: int, opens: bool): (r: UiState)
    ensures target == s.index ==> r == s
    ensures r.index == target && r.catalog == s.catalog && r.filter == s.filter
    ensures r.showMenu == s.showMenu && r.showControls == s.showControls && r.isMuted == s.isMuted
    ensures Inv(s) && 0 <= target < |View(s)| ==> Inv(r)
    ensures target != s.index && 0 <= target < |View(s)| && View(s)[target].mediaType == Video ==>
      r.isPlaying && r.audio == None
    ensures target != s.index && 0 <= target < |View(s)| && View(s)[target].mediaType == Audio ==>
      (r.audio.Some? <==> opens) && (opens ==> r.audio.value == View(s)[target].id && r.isPlaying)
  {
    if target == s.index then s else Activate(s.(index := target), opens)
  }

  /** `filterMedia` followed by the playback effect: the view is recomputed,
      the index goes back to 0, and the first item is played if there is one. */
  function Refilter(s: UiState, opens: bool): (r: UiState)
    ensures r.index == 0 && r.catalog == s.catalog && r.filter == s.filter
    ensures r.showMenu == s.showMenu && r.showControls == s.showControls && r.isMuted == s.isMuted
    ensures Inv(r)
    ensures |View(s)| == 0 ==> r.audio == s.audio
    ensures |View(s)| > 0 && View(s)[0].mediaType == Video ==> r.isPlaying && r.audio == None
    ensures |View(s)| > 0 && View(s)[0].mediaType == Audio ==>
      (r.audio.Some? <==> opens) && (opens ==> r.audio.value == View(s)[0].id && r.isPlaying)
  {
    Activate(s.(index := 0), opens)
  }

  /** `setMediaFilter`: a different category refilters; choosing the one
      already active changes no state, so nothing re-runs. */
  function SelectFilter(s: UiState, f: MediaFilter, opens: bool): (r: UiState)
    ensures r.filter == f && r.catalog == s.catalog && r.showMenu == s.showMenu
    ensures f == s.filter ==> r == s
    ensures f != s.filter ==> r.index == 0 && Inv(r)
    ensures f != s.filter ==> r == Refilter(s.(filter := f), opens)
    ensures r.showControls == s.showControls && r.isMuted == s.isMuted
  {
    if f == s.filter then s else Refilter(s.(filter := f), opens)
  }

  /** `handleFilterChange`: select the category and close the side menu. */
  function ChangeFilter(s: UiState, f: MediaFilter, opens: bool): (r: UiState)
    ensures r.filter == f && !r.showMenu
    ensures View(r) == FilterEngine.Filter(s.catalog, f)
    ensures f != s.filter ==> r.index == 0
    ensures f == s.filter ==> r == s.(showMenu := false)
    ensures f != s.filter ==> r == Refilter(s.(filter := f), opens).(showMenu := false)
    ensures r.showControls == s.showControls && r.isMuted == s.isMuted
    ensures Inv(s) ==> Inv(r)
  {
    SelectFilter(s, f, opens).(showMenu := false)
  }

  /** Switching to a category with no items never reaches `playCurrentMedia`,
      so a sound that was open stays open behind the empty-state message. */
  lemma EmptyCategoryKeepsSound(s: UiState, f: MediaFilter, opens: bool)
    requires f != s.filter && |FilterEngine.Filter(s.catalog, f)| == 0
    ensures ChangeFilter(s, f, opens).audio == s.audio
  {
  }

  /** `loadMedia` followed by the filtering and playback effects. */
  function LoadCatalog(s: UiState, outcome: Catalog.LoadOutcome, opens: bool): (r: UiState)
    ensures r.catalog == Catalog.LoadMedia(outcome) && r.filter == s.filter && r.index == 0
    ensures r.showMenu == s.showMenu && r.showControls == s.showControls && r.isMuted == s.isMuted
    ensures Inv(r) && HasCurrent(r)
    ensures Current(r).mediaType == Video ==> r.isPlaying && r.audio == None
    ensures Current(r).mediaType == Audio ==>
      (r.audio.Some? <==> opens) && (opens ==> r.audio.value == Current(r).id && r.isPlaying)
  {
    LoadedCatalogCoversEveryFilter(outcome, s.filter);
    Refilter(s.(catalog := Catalog.LoadMedia(outcome)), opens)
  }

  /** `togglePlayPause`; the player's status report that follows is taken to
      arrive at once. An audio item with no open sound ignores the button. */
  function TogglePlayPause(s: UiState): (r: UiState)
    requires HasCurrent(s)
    ensures r == s.(isPlaying := r.isPlaying)
    ensures r.isPlaying != s.isPlaying <==> Current(s).mediaType == Video || s.audio.Some?
  {
    if Current(s).mediaType == Video || s.audio.Some? then s.(isPlaying := !s.isPlaying) else s
  }

  /** Pressing play/pause twice leaves the state as it was. */
  lemma TogglePlayPauseTwice(s: UiState)
    requires HasCurrent(s)
    ensures TogglePlayPause(TogglePlayPause(s)) == s
  {
  }

  /** `toggleMute`: the flag always flips; for a video the surface follows
      the flag, for an open sound the volume is set to 1.0 when unmuting
      and 0.0 when muting. */
  function ToggleMute(s: UiState): (r: UiState)
    requires HasCurrent(s)
    ensures r == s.(isMuted := !s.isMuted, volume := r.volume)
    ensures Current(s).mediaType == Audio && s.audio.Some? ==> (r.volume == Silent <==> r.isMuted)
    ensures Current(s).mediaType == Video || s.audio.None? ==> r.volume == s.volume
  {
    if Current(s).mediaType == Video then s.(isMuted := !s.isMuted)
    else if s.audio.Some? then s.(volume := if s.isMuted then Full else Silent, isMuted := !s.isMuted)
    else s.(isMuted := !s.isMuted)
  }

  /** Muting then unmuting a sound restores full volume, whatever the volume
      was before. */
  lemma MuteUnmuteRestoresFullVolume(s: UiState)
    requires HasCurrent(s) && Current(s).mediaType == Audio && s.audio.Some? && !s.isMuted
    ensures ToggleMute(s).volume == Silent
    ensures ToggleMute(ToggleMute(s)) == s.(volume := Full)
  {
  }

  /** `handleScreenTap`: with the menu open the tap only closes the menu;
      otherwise it only shows or hides the controls. */
  function ScreenTap(s: UiState): (r: UiState)
    ensures !r.showMenu
    ensures s.showMenu ==> r == s.(showMenu := false)
    ensures !s.showMenu ==> r == s.(showControls := !s.showControls)
  {
    if s.showMenu then s.(showMenu := false)
    else if s.showControls then s.(showControls := false)
    else s.(showControls := true)
  }

  /** Two taps with the menu closed cancel out; with it open, the second
      tap toggles the controls. */
  lemma TapTwice(s: UiState)
    ensures !s.showMenu ==> ScreenTap(ScreenTap(s)) == s
    ensures s.showMenu ==> ScreenTap(ScreenTap(s)) == s.(showMenu := false, showControls := !s.showControls)
  {
  }

  /** The auto-hide timer's guard: controls shown, media playing, menu closed. */
  predicate AutoHideArmed(s: UiState)
  {
    s.showControls && s.isPlaying && !s.showMenu
  }

  /** The timer's expiry: hide the controls if the guard still holds. */
  function AutoHide(s: UiState): (r: UiState)
    ensures !AutoHideArmed(r)
    ensures r == s.(showControls := r.showControls)
    ensures r.showControls <==> s.showControls && !AutoHideArmed(s)
  {
    if AutoHideArmed(s) then s.(showControls := false) else s
  }

  /** A second expiry finds nothing to do, and an open menu keeps the
      controls up. */
  lemma AutoHideSettles(s: UiState)
    ensures AutoHide(AutoHide(s)) == AutoHide(s)
    ensures s.showMenu ==> AutoHide(s) == s
  {
  }

  /** Which index a vertical swipe targets, computed from the live index and
      view length. */
  function SwipeTarget(a: Gesture.SwipeAction, index: int, len: int): (t: int)
    requires a == Gesture.Next || a == Gesture.Previous
    ensures 0 <= index < len ==> 0 <= t < len
    ensures 0 <= index < len && a == Gesture.Next ==> Navigation.Previous(t, len) == index
    ensures 0 <= index < len && a == Gesture.Previous ==> Navigation.Next(t, len) == index
  {
    var t := if a == Gesture.Next then Navigation.Next(index, len) else Navigation.Previous(index, len);
    if 0 <= index < len then Navigation.NextPreviousInverse(index, len); t else t
  }

  /** `onPanResponderRelease` dispatched on the live state: exactly one of
      open menu, close menu, next, previous, or nothing. */
  function Release(s: UiState, dx: int, dy: int, vx: real, vy: real, opens: bool): (r: UiState)
    requires HasCurrent(s)
    ensures Inv(s) ==> Inv(r)
    ensures r.catalog == s.catalog && r.filter == s.filter && r.isMuted == s.isMuted
    ensures Gesture.Classify(dx, dy, vx, vy).IsHorizontal() ==>
      r == s.(showMenu := Gesture.Classify(dx, dy, vx, vy) == Gesture.OpenMenu)
    ensures !Gesture.Classify(dx, dy, vx, vy).IsHorizontal() ==> r.showMenu == s.showMenu
    ensures Gesture.Classify(dx, dy, vx, vy) == Gesture.NoAction ==> r == s
    ensures Gesture.Classify(dx, dy, vx, vy) == Gesture.Next ==>
      r.index == Navigation.Next(s.index, |View(s)|)
    ensures Gesture.Classify(dx, dy, vx, vy) == Gesture.Previous ==>
      r.index == Navigation.Previous(s.index, |View(s)|)
    ensures !Gesture.Classify(dx, dy, vx, vy).IsHorizontal() ==> r == Navigate(s, r.index, opens)
    ensures HasCurrent(r)
  {
    var a := Gesture.Classify(dx, dy, vx, vy);
    match a
    case OpenMenu => s.(showMenu := true)
    case CloseMenu => s.(showMenu := false)
    case Next => Navigate(s, SwipeTarget(a, s.index, |View(s)|), opens)
    case Previous => Navigate(s, SwipeTarget(a, s.index, |View(s)|), opens)
    case NoAction => s
  }

  /** The release handler as the screen wires it: the responder is created
      once, so its navigation closures still see the first render, where
      the index is 0 and the view is empty. */
  function StaleRelease(s: UiState, dx: int, dy: int, vx: real, vy: real, opens: bool): (r: UiState)
    requires HasCurrent(s)
    ensures r.catalog == s.catalog && r.filter == s.filter
    ensures Gesture.Classify(dx, dy, vx, vy).IsHorizontal() ==>
      r == s.(showMenu := Gesture.Classify(dx, dy, vx, vy) == Gesture.OpenMenu)
    ensures Gesture.Classify(dx, dy, vx, vy) == Gesture.Next ==> r.index == 0
    ensures Gesture.Classify(dx, dy, vx, vy) == Gesture.Previous ==> r.index == -1
  {
    match Gesture.Classify(dx, dy, vx, vy)
    case OpenMenu => s.(showMenu := true)
    case CloseMenu => s.(showMenu := false)
    case Next => Navigate(s, Navigation.Next(0, 0), opens)
    case Previous => Navigate(s, Navigation.Previous(0, 0), opens)
    case NoAction => s
  }

  /** As wired, a swipe up always returns to the first item and a swipe
      down sets the index to -1, outside every view. */
  lemma StaleSwipeLeavesView(s: UiState, dx: int, dy: int, vx: real, vy: real, opens: bool)
    requires HasCurrent(s)
    ensures Gesture.Classify(dx, dy, vx, vy) == Gesture.Next ==>
      StaleRelease(s, dx, dy, vx, vy, opens).index == 0
    ensures Gesture.Classify(dx, dy, vx, vy) == Gesture.Previous ==>
      StaleRelease(s, dx, dy, vx, vy, opens).index == -1
      && !HasCurrent(StaleRelease(s, dx, dy, vx, vy, opens))
  {
  }

  /** From the first of three items a downward swipe goes to the last item
      when the live index is used, but to -1 as wired. */
  lemma LiveAndStaleSwipesDiffer(s: UiState)
    requires |View(s)| == 3 && s.index == 0 && Inv(s)
    ensures Release(s, 0, 80, 0.0, 0.0, true).index == 2
    ensures StaleRelease(s, 0, 80, 0.0, 0.0, true).index == -1
  {
  }

  /** The events the screen reacts to. `opens` is the outcome of opening a
      sound wherever the event may lead to one. */
  datatype Event =
    | Loaded(outcome: Catalog.LoadOutcome, opens: bool)
    | Tapped
    | MenuClosed
    | MutePressed
    | PlayPausePressed
    | FilterChosen(f: MediaFilter, opens: bool)
    | ShowAllPressed(opens: bool)
    | Swiped(dx: int, dy: int, vx: real, vy: real, opens: bool)
    | ControlsTimerFired

  /** One event. The feed, with its tap overlay, buttons, side menu and pan
      handlers, is on screen only while the view is non-empty; the "show all"
      button only while it is empty. The side menu's close and category
      buttons take touches only while the menu is open, and the play/pause
      and mute buttons only while the controls are shown. An event whose
      control is not on screen cannot happen and leaves the state alone. */
  function Step(s: UiState, e: Event): (r: UiState)
    ensures Inv(s) ==> Inv(r)
  {
    match e
    case Loaded(outcome, opens) => LoadCatalog(s, outcome, opens)
    case Tapped => if HasCurrent(s) then ScreenTap(s) else s
    case MenuClosed => if HasCurrent(s) && s.showMenu then s.(showMenu := false) else s
    case MutePressed => if HasCurrent(s) && s.showControls then ToggleMute(s) else s
    case PlayPausePressed => if HasCurrent(s) && s.showControls then TogglePlayPause(s) else s
    case FilterChosen(f, opens) => if HasCurrent(s) && s.showMenu then ChangeFilter(s, f, opens) else s
    case ShowAllPressed(opens) => if |View(s)| == 0 then SelectFilter(s, ShowAll, opens) else s
    case Swiped(dx, dy, vx, vy, opens) =>
      if HasCurrent(s) then Release(s, dx, dy, vx, vy, opens) else s
    case ControlsTimerFired => AutoHide(s)
  }

  function Run(s: UiState, events: seq<Event>): UiState
    decreases |events|
  {
    if |events| == 0 then s else Run(Step(s, events[0]), events[1..])
  }

  /** Every state reachable from the mounted screen keeps the invariant:
      a non-empty view always has a current item, and an open sound always
      belongs to it. */
  lemma {:induction false} RunKeepsInv(s: UiState, events: seq<Event>)
    requires Inv(s)
    ensures Inv(Run(s, events))
    ensures |View(Run(s, events))| > 0 ==> HasCurrent(Run(s, events))
    decreases |events|
  {
    if |events| > 0 {
      RunKeepsInv(Step(s, events[0]), events[1..]);
    }
  }

  lemma ReachableStatesAreSound(events: seq<Event>)
    ensures Inv(Run(Initial(), events))
  {
    RunKeepsInv(Initial(), events);
  }

  /** Before the first load the catalog is empty and no sound is open;
      after it, every category has items. */
  predicate Settled(s: UiState)
  {
    || (s.catalog == [] && s.audio.None?)
    || (forall f: MediaFilter :: |FilterEngine.Filter(s.catalog, f)| > 0)
  }

  /** A loaded catalog has items under every category. */
  lemma LoadedCatalogCoversEveryFilter(outcome: Catalog.LoadOutcome, f: MediaFilter)
    ensures |FilterEngine.Filter(Catalog.LoadMedia(outcome), f)| > 0
  {
    Catalog.SampleComposition();
    match outcome
    case Granted(assets) =>
      Catalog.GrantedViewsSplit(assets, f);
    case Denied =>
    case Failed =>
  }

  lemma StepKeepsSettled(s: UiState, e: Event)
    requires Settled(s)
    ensures Settled(Step(s, e))
  {
    match e
    case Loaded(outcome, opens) =>
      forall f: MediaFilter
        ensures |FilterEngine.Filter(Step(s, e).catalog, f)| > 0
      {
        LoadedCatalogCoversEveryFilter(outcome, f);
      }
    case _ =>
  }

  lemma {:induction false} RunKeepsSettled(s: UiState, events: seq<Event>)
    requires Settled(s)
    ensures Settled(Run(s, events))
    decreases |events|
  {
    if |events| > 0 {
      StepKeepsSettled(s, events[0]);
      RunKeepsSettled(Step(s, events[0]), events[1..]);
    }
  }

  /** From the mounted screen, the empty-state message never hides an open
      sound: a category can only be empty before the first load, when no
      sound has been opened. */
  lemma NoSoundBehindEmptyView(events: seq<Event>)
    ensures |View(Run(Initial(), events))| == 0 ==> Run(Initial(), events).audio.None?
  {
    RunKeepsSettled(Initial(), events);
  }
}

=== FILE: timefmt.dfy ===
/** The `m:ss` labels shown under the title for the playback position and
    duration. `TimeLabel` renders and reads back a label from minutes and
    seconds; `TimeFormat` is the screen's `formatTime` on whole
    non-negative milliseconds. */
module TimeLabel {
  import opened Optional

  predicate IsDigit(c: char)
  {
    '0' <= c <= '9'
  }

  /** Every character is a decimal digit (read from the end, like `ValueOf`). */
  predicate AllDigits(s: string)
    decreases |s|
  {
    |s| == 0 || (IsDigit(s[|s| - 1]) && AllDigits(s[..|s| - 1]))
  }

  function DigitChar(d: nat): (c: char)
    requires d < 10
    ensures IsDigit(c)
  {
    (('0' as int) + d) as char
  }

  function DigitValue(c: char): (d: nat)
    requires IsDigit(c)
    ensures d < 10 && DigitChar(d) == c
  {
    (c as int) - ('0' as int)
  }

  /** The number a string of decimal digits denotes (most significant first). */
  function ValueOf(s: string): nat
    requires AllDigits(s)
    decreases |s|
  {
    if |s| == 0 then 0
    else ValueOf(s[..|s| - 1]) * 10 + DigitValue(s[|s| - 1])
  }

  /** `Number.prototype.toString()` on a natural number: its decimal digits
      with no leading zero. */
  function NatToString(n: nat): (s: string)
    ensures |s| >= 1 && AllDigits(s)
    ensures |s| > 1 ==> s[0] != '0'
    ensures n < 10 <==> |s| == 1
    decreases n
  {
    if n < 10 then [DigitChar(n)]
    else NatToString(n / 10) + [DigitChar(n % 10)]
  }

  /** Reading the digits back yields the number. */
  lemma {:induction false} NatToStringValue(n: nat)
    ensures ValueOf(NatToString(n)) == n
    decreases n
  {
    var s := NatToString(n);
    if n < 10 {
      assert s[..0] == [];
    } else {
      NatToStringValue(n / 10);
      assert s[..|s| - 1] == NatToString(n / 10);
    }
  }

  /** Every character is the digit zero. */
  predicate AllZeros(s: string)
    decreases |s|
  {
    |s| == 0 || (s[0] == '0' && AllZeros(s[1..]))
  }

  /** `padStart(2, '0')`: left-pad with zeros up to two characters. */
  function PadStart2(s: string): (r: string)
    ensures |r| == if |s| >= 2 then |s| else 2
    ensures r[|r| - |s|..] == s
    ensures AllZeros(r[..|r| - |s|])
  {
    if |s| >= 2 then s else if |s| == 1 then ['0'] + s else ['0', '0']
  }


  /** A playback position as the label shows it: whole minutes and the
      seconds left over. */
  datatype Clock = Clock(minutes: nat, seconds: nat)
  {
    predicate Valid()
    {
      seconds < 60
    }

    /** The whole number of seconds the label stands for. */
    function Total(): nat
    {
      minutes * 60 + seconds
    }
  }

  /** The seconds field: always exactly two digits. */
  function TwoDigits(secs: nat): (r: string)
    requires secs < 60
    ensures |r| == 2 && AllDigits(r)
    ensures ValueOf(r) == secs
  {
    NatToStringValue(secs);
    var s := NatToString(secs);
    var r := PadStart2(s);
    if |s| == 1 then
      assert r == ['0'] + s;
      assert r[..1] == ['0'];
      r
    else
      r
  }

  /** The label of a clock reading: the minutes as they come, a colon,
      and the seconds padded to two digits. Reading it back gives the
      same clock. */
  function Render(c: Clock): (r: string)
    requires c.Valid()
    ensures |r| >= 4 && r[|r| - 3] == ':'
    ensures AllDigits(r[..|r| - 3]) && AllDigits(r[|r| - 2..])
    ensures ParseClock(r) == Some(c)
    ensures |r| > 4 ==> r[0] != '0'
  {
    var m, ss := NatToString(c.minutes), TwoDigits(c.seconds);
    NatToStringValue(c.minutes);
    ParseLabel(m, ss);
    Label(m, ss)
  }

  /** Minutes text, a colon and the seconds text. */
  function Label(m: string, ss: string): (r: string)
    requires |m| >= 1 && |ss| == 2
    ensures |r| >= 4 && r[|r| - 3] == ':'
    ensures r[..|r| - 3] == m && r[|r| - 2..] == ss
    ensures r[0] == m[0]
  {
    m + ":" + ss
  }

  /** The inverse reading of an `m:ss` label, or nothing when the text is
      not of that shape or its seconds field is 60 or more. */
  function ParseClock(s: string): (r: Option<Clock>)
    ensures r.Some? ==> |s| >= 4 && s[|s| - 3] == ':' && r.value.Valid()
    ensures r.Some? ==> AllDigits(s[..|s| - 3]) && AllDigits(s[|s| - 2..])
  {
    if |s| < 4 || s[|s| - 3] != ':' then None
    else
      var m, ss := s[..|s| - 3], s[|s| - 2..];
      if !AllDigits(m) || !AllDigits(ss) || ValueOf(ss) >= 60 then None
      else Some(Clock(ValueOf(m), ValueOf(ss)))
  }

  /** A label built from digit strings, with seconds below 60, reads back
      as the clock those digits denote. */
  lemma ParseLabel(m: string, ss: string)
    requires |m| >= 1 && |ss| == 2 && AllDigits(m) && AllDigits(ss) && ValueOf(ss) < 60
    ensures ParseClock(Label(m, ss)) == Some(Clock(ValueOf(m), ValueOf(ss)))
  {
    var r := Label(m, ss);
    assert r[..|r| - 3] == m && r[|r| - 2..] == ss;
  }

  /** Two valid clocks get the same label only when they are the same. */
  lemma RenderInjective(a: Clock, b: Clock)
    requires a.Valid() && b.Valid()
    ensures Render(a) == Render(b) <==> a == b
  {
    if Render(a) == Render(b) {
      assert ParseClock(Render(a)) == ParseClock(Render(b));
    }
  }

  lemma RenderZero()
    ensures Render(Clock(0, 0)) == "0:00"
  {
    assert NatToString(0) == "0";
    assert TwoDigits(0) == "00";
    assert Label("0", "00") == "0:00";
  }

  lemma RenderPadsSeconds()
    ensures Render(Clock(1, 5)) == "1:05"
  {
    assert NatToString(1) == "1";
    assert NatToString(5) == "5";
    assert TwoDigits(5) == "05";
    assert Label("1", "05") == "1:05";
  }

  lemma RenderTenMinutes()
    ensures Render(Clock(10, 0)) == "10:00"
  {
    assert NatToString(1) == "1";
    assert NatToString(10) == "10";
    assert NatToString(0) == "0";
    assert TwoDigits(0) == "00";
    assert Label("10", "00") == "10:00";
  }
}

module TimeFormat {
  import opened Optional
  import opened TimeLabel

  /** The whole minutes and leftover seconds of a millisecond count, with
      the milliseconds below a second dropped (`Math.floor`). */
  function TimeParts(ms: nat): (r: Clock)
    ensures r.Valid()
    ensures r.Total() == ms / 1000
  {
    var seconds := ms / 1000;
    Clock(seconds / 60, seconds % 60)
  }

  /** `formatTime`: the label reads back as the clock reading of the
      millisecond count, and so as its whole number of seconds. */
  function FormatTime(ms: nat): (r: string)
    ensures ParseClock(r) == Some(TimeParts(ms))
    ensures ParseClock(r).value.Total() == ms / 1000
    ensures |r| > 4 ==> r[0] != '0'
  {
    Render(TimeParts(ms))
  }

  /** Two times get the same label exactly when they fall in the same second. */
  lemma FormatTimeSameSecond(a: nat, b: nat)
    ensures FormatTime(a) == FormatTime(b) <==> a / 1000 == b / 1000
  {
    RenderInjective(TimeParts(a), TimeParts(b));
  }

  /** Labels as the screen shows them: under a minute, a padded seconds
      field, and the milliseconds below a second dropped. */
  lemma FormatTimeZero()
    ensures FormatTime(0) == "0:00"
  {
    assert TimeParts(0) == Clock(0, 0);
    RenderZero();
  }

  lemma FormatTimePadsSeconds()
    ensures FormatTime(65_000) == "1:05"
  {
    assert TimeParts(65_000) == Clock(1, 5);
    RenderPadsSeconds();
  }

  lemma FormatTimeDropsMilliseconds()
    ensures FormatTime(600_999) == "10:00"
  {
    assert TimeParts(600_999) == Clock(10, 0);
    RenderTenMinutes();
  }
}
